=== FILE: README.md ===
# SecureShare account and secret vault, modelled in Dafny

SecureShare is a small web application. A registered user stores a short
secret behind a password and shares it through a link of the form
`/view/sec_XXXXXXXXXX`. A secret may expire after a number of hours, and every
successful view is counted. This project models the account and vault logic as
a sequential state machine. The state is an immutable record holding the two
tables (`users`, `secrets`) as maps from primary key to row, plus the one
client's session. Each route handler is a pure function from a state, the
clock, the request method and the form fields to the next state and a
response tag.

Files and modules:

- `wrappers.dfy` (`Wrappers`): `Option`, for absent form fields, nullable
  columns and empty query results.
- `keys.dfy` (`Keys`): the least key of a set. A query's `.first()` is read
  as the matching row with the least primary key.
- `passwords.dfy` (`Passwords`): password hashing, reduced to "a password
  checks against its own hash".
- `unique_ids.dfy` (`UniqueIds`): the `sec_` + 10 letters-or-digits public
  identifier, the random draw behind it, and its inverse.
- `schema.dfy` (`Schema`): the `User` and `Secret` rows, column defaults,
  UNIQUE constraints enforced at commit, the `.first()` lookups, the
  `to_dict` projections and the admin seeding of `init_db`.
- `app.dfy` (`App`): the route handlers `/login`, `/register`, `/logout`,
  `/dashboard`, `/create`, `/view/<id>`, `/` and `/api/auth/check`.
- `runs.dfy` (`Runs`): one `Step` per request, `Run` over a sequence of
  timed requests, the invariant `Valid` of every reachable state, and
  properties of arbitrary request sequences.

Modelling choices:

- Form fields are `Option<string>`, because `request.form.get` returns
  `None` for a missing field. The check `not title` is `Filled`: absent and
  empty both fail it.
- Some handlers raise an exception the application does not catch. The
  model's `Fault` response stands for that HTTP 500: nothing is committed and
  the state does not change. It covers four cases:
  - hashing a missing password when registering;
  - checking a missing password when logging in or viewing;
  - a missing username or email, which breaks NOT NULL;
  - a random identifier that collides with a stored one, which breaks UNIQUE
    at commit. `/create` does not check for a collision first.
- The clock is an integer number of seconds, supplied by the caller. An
  expiry of `h` hours is `now + 3600 * h`. A secret is expired when
  `expires_at < now`, strictly.
- The random identifier is a `Draw`: ten alphabet positions in `0..61`, as
  `secrets.choice` picks them. Every draw gives a well-formed identifier, and
  every well-formed identifier comes from exactly one draw.
- `blur_level` and `expiration` arrive already parsed by `int()`:
  - `blur_level` is `Option<int>`; `None` means the field was absent, which
    gives the form default 10.
  - `expiration` is `Option<int>`; `None` means `int()` raised `ValueError`.
    An absent field parses as `Some(0)`.
- Keys are issued from 1 in increasing order. Nothing is ever deleted, so
  this is what SQLite's rowid allocation does here.
- Password hashing is modelled by a digest that `CheckPassword` compares
  with. Every property is stated in terms of "the password checks" or "the
  check returned false", never in terms of the digest.

Three behaviours of the code shape the model:

- `/create` redirects to `/view/<unique_id>`; its response tag carries the new identifier.
- `/create` does not check the random identifier against the stored ones, so
  a collision makes the commit fail, which is `Fault` here.
- A GET to `/view` passes the secret to the page unauthenticated; the model's
  page then carries no content (see Left out). A POST to `/view` whose
  form lacks the password field raises inside `check_password_hash`, which is
  `Fault` here.

## Model

| member | source | states |
|---|---|---|
| Passwords.HashPassword | schema.py:22-26 | a password always checks against the hash generated from it |
| Schema.SetUserPassword | schema.py:22-26 | after `User.set_password(p)`, `check_password(p)` holds, and no other field of the user changes |
| Schema.SetSecretPassword | schema.py:52-56 | after `Secret.set_password(p)`, `check_password(p)` holds, and no other field of the secret changes |
| Schema.NewUser | schema.py:12-17 | a new user has the given username and email, a password that checks, `created_at` equal to the insert time, and `is_admin` defaulting to false |
| Schema.NewSecret | schema.py:40-50 | a new secret keeps the given fields, has a password that checks, `created_at` equal to the insert time, and `view_count` defaulting to 0 |
| Schema.InsertUser | schema.py:13-14 | the commit fails exactly when the username or the email is already taken; otherwise exactly one row is added under a fresh key, and the constraints still hold |
| Schema.InsertSecret | schema.py:49 | the commit fails exactly when the unique_id is already taken; otherwise exactly one row is added under a fresh key, and the constraints still hold |
| Schema.UserByName | app.py:28 | the lookup finds a user named `name` exactly when one exists; a missing name finds none; when usernames are distinct it finds that user |
| Schema.SecretByUniqueId | app.py:147 | the lookup finds a secret with the identifier exactly when one exists; when identifiers are distinct it finds that secret |
| Schema.UserToDictExposes | schema.py:28-35 | two users give the same `to_dict` iff they agree on id, username, email, created_at and is_admin, so the password hash never shows |
| Schema.SecretToDictExposes | schema.py:63-72 | two secrets give the same `to_dict` iff they agree on id, title, blur_level, created_at, expires_at, view_count and unique_id, so content, password hash, owner and QR path never show |
| Schema.InitDb | schema.py:74-89 | if `admin` exists nothing changes; otherwise an admin user is added, with the fixed email, `is_admin` true and the fixed password; the insert fails only if that email is taken |
| Schema.InitDbIdempotent | schema.py:80-81 | seeding a second time, at any time, adds no user |
| UniqueIds.Generate | schema.py:58-61 | every generated identifier is `sec_` followed by 10 ASCII letters or digits, and fits the 50-character column |
| UniqueIds.DrawOf | schema.py:58-61 | every well-formed identifier is produced by some draw of the random picks |
| UniqueIds.DrawRoundTrip | schema.py:58-61 | the draw can be recovered from the identifier, so distinct draws give distinct identifiers |
| UniqueIds.GeneratedIff | schema.py:58-61 | an identifier is well formed iff some draw generates it |
| UniqueIds.AlphabetMembership | schema.py:59 | the alphabet `ascii_letters + digits` holds exactly the ASCII letters and digits |
| UniqueIds.AlphabetIsAlnum | schema.py:59 | each of the 62 alphabet positions holds a letter or digit, and no character appears at two positions |
| App.Login | app.py:22-38 | a GET shows the form; a POST leaves the store unchanged; the session is set to user k only if k is named `username` and the password checks; when usernames are distinct this happens iff such a user exists; otherwise nothing changes; a POST with no user of that name, or a password that does not check, gives the form with 'Invalid username or password'; a missing password for an existing user raises (HTTP 500) |
| App.Register | app.py:40-65 | a duplicate username or email is refused with nothing changed, and that refusal happens only for a real duplicate; a non-duplicate POST missing a field raises (HTTP 500) with nothing changed; success happens iff the request is a non-duplicate POST with all three fields; success adds exactly one non-admin user with that username and email and a password that checks, and signs that user in |
| App.RegisterTwiceFails | app.py:47-50 | once a username is registered, registering it again is refused as a duplicate |
| App.Logout | app.py:67-70 | the session is cleared and the store is unchanged |
| App.ShowDashboard | app.py:73-81 | without a session the handler redirects to login; with one it lists exactly the secrets owned by the session user; nothing changes |
| App.ExpiresAt | app.py:99-106 | an expiry is set iff the parsed hours h are positive; it is then h hours after now |
| App.ExpiryBoundary | app.py:153 | a secret is still viewable at exactly its expiry time and is expired one second later |
| App.NoExpiryNeverExpires | app.py:100-106 | a secret created with zero, negative or unparseable hours never expires |
| App.CreateSecret | app.py:83-143 | without a session the handler redirects to login and nothing changes; missing fields add nothing; success happens iff the request is a signed-in POST with title, content and password and a fresh identifier; success adds one secret owned by the session user, with view_count 0, the supplied blur_level or 10 when absent, the computed expiry, a password that checks and a well-formed identifier; a complete signed-in POST whose generated identifier is already stored raises at commit (HTTP 500) with nothing changed |
| App.ViewSecret | app.py:145-168 | an unknown identifier, and only an unknown one, is refused as not found; a known secret is refused as expired iff its expiry is strictly before now; on a live secret a GET shows the page without content, a POST without a password is `Fault`, a POST whose password fails shows the page with the error and no content, and a POST whose password checks shows the content with the raised count; only a POST whose password checks against a live secret shows the content, raising that secret's count by one; every other outcome changes nothing and shows no content |
| App.ViewExpired | app.py:152-154 | an expired secret is refused whatever the method and password, and nothing changes |
| App.ViewPasswordGate | app.py:156-166 | on a live secret a POST is let through iff its password checks |
| App.Index | app.py:171-175 | the home page redirects to the dashboard iff there is a session; nothing changes |
| App.CheckAuth | app.py:177-190 | the auth check reports the user's `to_dict` iff the session names an existing user; nothing changes |
| Runs.Boot | schema.py:74-89 | start-up on an empty store gives a valid state with a seeded admin and no session |
| Runs.LoginKeepsValid | app.py:28-34 | login keeps the state valid |
| Runs.RegisterKeepsValid | app.py:47-61 | registering keeps usernames and emails distinct and the session pointing at a real user |
| Runs.CreateKeepsValid | app.py:108-139 | creating a secret keeps identifiers distinct and well formed, with expiry after creation |
| Runs.ViewKeepsValid | app.py:159-162 | viewing keeps the state valid |
| Runs.StepKeepsValid | app.py:22-190 | every request keeps usernames, emails and unique_ids pairwise distinct, and the other parts of `Valid` |
| Runs.RegisterEvolves | app.py:53-57 | registering only adds a user row |
| Runs.CreateKeepsSecrets | app.py:112-139 | creating a secret leaves every existing secret as it was |
| Runs.ViewEvolves | app.py:159-162 | viewing changes no row except by raising a view count |
| Runs.OthersKeepSecrets | app.py:22-143 | every request other than a view leaves every stored secret as it was |
| Runs.StepEvolves | app.py:161 | no request deletes or edits a row, and no view count goes down |
| Runs.CountChangesOnlyOnCorrectPassword | app.py:156-162 | a view count changes only on a POST to `/view` whose password checks against that live secret; it then rises by exactly one and no other secret changes |
| Runs.ViewCountChange | app.py:156-162 | the same statement, for `/view` itself |
| Runs.OnlyAuthenticatedViewsReveal | app.py:147-168 | content is shown only to a POST whose password checks against the live secret with that identifier, and the content shown is that secret's own |
| Runs.EvolvesTransitive | app.py:161 | "keeps every row, counts not decreasing" composes over consecutive steps |
| Runs.RunKeepsValid | app.py:22-190 | every sequence of requests keeps the state valid |
| Runs.RunEvolves | app.py:161 | over any sequence of requests view counts never decrease, and no row is removed or edited |
| Runs.AdminPersists | schema.py:80-89 | after start-up, the admin account exists whatever requests follow |

## Left out

- Flask routing, templates, redirects and `jsonify` are reduced to response tags. The JSON shape of `/api/auth/check` is not modelled.
- What `view.html` renders from the whole record passed to it is not modelled. The model's page carries only the `to_dict` projection, plus the content when authenticated.
- Session cookie settings and the `app.secret_key` generation are framework configuration.
- SQLAlchemy I/O and relationship loading are replaced by in-memory maps. The model has one logical transaction per request.
- The cascade delete of a user's secrets is not modelled, because no operation deletes a user.
- werkzeug's hash function and salting are not modelled, because the model keeps only the check-after-set law.
- The randomness of `secrets.choice` is a parameter, the `Draw`. Collision probability is not modelled.
- segno QR generation, directory creation and file writes are I/O and a foreign library. Only the stored `qr_path` string is modelled.
- The `int()` parsing of `blur_level` and `expiration` is not modelled; both arrive parsed. The uncaught `ValueError` on a malformed `blur_level` is not modelled either.
- `datetime.utcnow` and `timedelta` become an integer clock in seconds. Sub-second differences between the two clock reads in `/create` are not modelled. Neither is the `OverflowError` of a TTL that leaves the `datetime` range.
- The column widths `String(50)`, `String(100)` and `String(255)` are not modelled as constraints, because SQLite does not enforce them. The identifier's fit in its 50-character column is still proved.
- Foreign-key enforcement is not modelled, because SQLite does not enforce it by default. `Valid` proves every secret's owner exists anyway.
- The Python integer `view_count` is unbounded here. SQLite's 64-bit limit is out of reach in practice.
- `app.run`, debug mode and concurrency are not modelled. Requests are handled one at a time.

=== FILE: app.dfy ===
/** The route handlers, reduced to their decisions. Each handler takes the
    current state (the store and the one client's session), the request's
    method and form fields, and returns the next state with a response tag.
    A form field the request did not carry is `None`. The clock is an integer
    number of seconds passed in by the caller. */
module App {
  import opened Wrappers
  import opened UniqueIds
  import opened Schema

  const SecondsPerHour: int := 3600

  /** The signed session cookie: `user_id` and `username`. */
  datatype Session = Session(userId: nat, username: string)

  datatype State = State(db: Db, session: Option<Session>)

  datatype Method = Get | Post

  datatype Target = ToLogin | ToDashboard | ToView(uniqueId: string)

  /** The messages the pages show. */
  datatype Problem = InvalidCredentials | DuplicateAccount | MissingFields | NotFound | Expired

  datatype Response =
    | Form                                  // the blank form of a GET
    | FormError(problem: Problem)           // the form again, with a message
    | ErrorPage(problem: Problem)
    | Redirect(target: Target)
    | Landing
    | Dashboard(secretIds: set<nat>, username: string)
    | SecretPage(info: SecretInfo, content: Option<string>, authenticated: bool, wrongPassword: bool)
    | AuthStatus(user: Option<UserInfo>)
    | Fault                                 // an uncaught exception: HTTP 500, nothing committed

  datatype Transition = Transition(next: State, response: Response)

  /** Python truthiness of a form field: absent and empty are both false. */
  predicate Filled(field: Option<string>) {
    field.Some? && field.value != ""
  }

  /** User `k` exists, is named `username`, and `password` checks against it. */
  predicate Authenticates(users: map<nat, User>, k: nat, username: Option<string>, password: Option<string>) {
    && k in users
    && username == Some(users[k].username)
    && password.Some?
    && CheckUserPassword(users[k], password.value)
  }

  /** `/login`. */
  function Login(st: State, verb: Method, username: Option<string>, password: Option<string>): (t: Transition)
    ensures t.next.db == st.db
    ensures verb.Get? ==> t == Transition(st, Form)
    ensures t.response != Redirect(ToDashboard) ==> t.next == st
    ensures t.response == Redirect(ToDashboard) ==>
              && verb.Post?
              && t.next.session.Some?
              && var k := t.next.session.value.userId;
                 Authenticates(st.db.users, k, username, password) &&
                 t.next.session.value.username == st.db.users[k].username
    ensures verb.Post? && UserByName(st.db.users, username).None? ==>
              t == Transition(st, FormError(InvalidCredentials))
    ensures verb.Post? && UserByName(st.db.users, username).Some? ==>
              var u := st.db.users[UserByName(st.db.users, username).value];
              && (password.None? ==> t == Transition(st, Fault))
              && (password.Some? && !CheckUserPassword(u, password.value) ==>
                    t == Transition(st, FormError(InvalidCredentials)))
    ensures verb.Post? && UsernamesDistinct(st.db.users) ==>
              ((exists k :: Authenticates(st.db.users, k, username, password)) <==>
               t.response == Redirect(ToDashboard))
  {
    if verb.Get? then Transition(st, Form)
    else
      match UserByName(st.db.users, username)
      case None => Transition(st, FormError(InvalidCredentials))
      case Some(k) =>
        var user := st.db.users[k];
        if password.None? then
          // check_password_hash cannot hash a missing password and raises
          Transition(st, Fault)
        else if CheckUserPassword(user, password.value) then
          assert Authenticates(st.db.users, k, username, password);
          Transition(st.(session := Some(Session(k, user.username))), Redirect(ToDashboard))
        else
          Transition(st, FormError(InvalidCredentials))
  }

  /** Some existing user already has this username or this email. A missing
      field compares as NULL and matches no row. */
  predicate Duplicate(users: map<nat, User>, username: Option<string>, email: Option<string>) {
    || (username.Some? && UsernameTaken(users, username.value))
    || (email.Some? && EmailTaken(users, email.value))
  }

  /** `/register`. */
  function Register(st: State, now: int, verb: Method,
                    username: Option<string>, email: Option<string>, password: Option<string>): (t: Transition)
    ensures t.next.db.secrets == st.db.secrets
    ensures verb.Get? ==> t == Transition(st, Form)
    ensures verb.Post? && Duplicate(st.db.users, username, email) ==>
              t == Transition(st, FormError(DuplicateAccount))
    ensures t.response == FormError(DuplicateAccount) ==> verb.Post? && Duplicate(st.db.users, username, email)
    ensures verb.Post? && !Duplicate(st.db.users, username, email)
              && (username.None? || email.None? || password.None?) ==>
              t == Transition(st, Fault)
    ensures t.response != Redirect(ToDashboard) ==> t.next == st
    ensures t.response == Redirect(ToDashboard) <==>
              && verb.Post?
              && !Duplicate(st.db.users, username, email)
              && username.Some? && email.Some? && password.Some?
    ensures t.response == Redirect(ToDashboard) ==>
              && var id := st.db.nextUserId;
                 && id in t.next.db.users
                 && t.next.db.users == st.db.users[id := t.next.db.users[id]]
                 && (Constrained(st.db) ==> id !in st.db.users && Constrained(t.next.db))
                 && var u := t.next.db.users[id];
                    && Some(u.username) == username && Some(u.email) == email
                    && CheckUserPassword(u, password.value)
                    && !u.isAdmin && u.createdAt == now
                    && t.next.session == Some(Session(id, u.username))
  {
    if verb.Get? then Transition(st, Form)
    else if Duplicate(st.db.users, username, email) then
      Transition(st, FormError(DuplicateAccount))
    else if password.None? || username.None? || email.None? then
      // hashing a missing password raises; a missing username or email
      // violates NOT NULL at commit
      Transition(st, Fault)
    else
      var id := st.db.nextUserId;
      var user := NewUser(username.value, email.value, password.value, now);
      match InsertUser(st.db, user)
      case None => Transition(st, Fault)
      case Some(db) => Transition(State(db, Some(Session(id, user.username))), Redirect(ToDashboard))
  }

  /** Registering a username a second time fails, whatever the other fields. */
  lemma RegisterTwiceFails(st: State, now: int, later: int, name: string, email: Option<string>,
                           password: Option<string>, email': Option<string>, password': Option<string>)
    requires Register(st, now, Post, Some(name), email, password).response == Redirect(ToDashboard)
    ensures var st' := Register(st, now, Post, Some(name), email, password).next;
            Register(st', later, Post, Some(name), email', password') == Transition(st', FormError(DuplicateAccount))
  {
    var st' := Register(st, now, Post, Some(name), email, password).next;
    assert st'.db.users[st.db.nextUserId].username == name;
    assert UsernameTaken(st'.db.users, name);
  }

  /** `/logout`. */
  function Logout(st: State): (t: Transition)
    ensures t.next.db == st.db && t.next.session.None?
    ensures t.response == Redirect(ToLogin)
  {
    Transition(st.(session := None), Redirect(ToLogin))
  }

  /** `/dashboard`: the signed-in user's secrets. */
  function ShowDashboard(st: State): (t: Transition)
    ensures t.next == st
    ensures st.session.None? ==> t.response == Redirect(ToLogin)
    ensures st.session.Some? ==>
              && t.response.Dashboard?
              && t.response.username == st.session.value.username
              && forall k :: k in t.response.secretIds <==>
                   k in st.db.secrets && st.db.secrets[k].owner == st.session.value.userId
  {
    match st.session
    case None => Transition(st, Redirect(ToLogin))
    case Some(s) =>
      var owned := set k | k in st.db.secrets && st.db.secrets[k].owner == s.userId;
      Transition(st, Dashboard(owned, s.username))
  }

  /** The expiry of a new secret, from the `expiration` field parsed by
      `int()` (`None` when parsing failed). Zero and negative mean never. */
  function ExpiresAt(now: int, expiration: Option<int>): (r: Option<int>)
    ensures r.Some? <==> expiration.Some? && expiration.value > 0
    ensures r.Some? ==> r.value > now && r.value - now == expiration.value * SecondsPerHour
  {
    match expiration
    case Some(hours) => if hours > 0 then Some(now + hours * SecondsPerHour) else None
    case None => None
  }

  /** Where the QR image of a secret is stored, relative to the static folder. */
  function QrPath(uniqueId: string): string {
    "qrcodes/qr_" + uniqueId + ".png"
  }

  /** `/create`. `blurLevel` is the parsed `blur_level` field (`None` when
      absent), `expiration` the parsed `expiration` field (`Some(0)` when
      absent), `draw` the random picks of the identifier. */
  function CreateSecret(st: State, now: int, verb: Method,
                        title: Option<string>, content: Option<string>, password: Option<string>,
                        blurLevel: Option<int>, expiration: Option<int>, draw: Draw): (t: Transition)
    ensures t.next.db.users == st.db.users && t.next.session == st.session
    ensures st.session.None? ==> t == Transition(st, Redirect(ToLogin))
    ensures st.session.Some? && verb.Get? ==> t == Transition(st, Form)
    ensures st.session.Some? && verb.Post? && !(Filled(title) && Filled(content) && Filled(password)) ==>
              t == Transition(st, FormError(MissingFields))
    ensures st.session.Some? && verb.Post? && Filled(title) && Filled(content) && Filled(password)
              && UniqueIdTaken(st.db.secrets, Generate(draw)) ==>
              t == Transition(st, Fault)
    ensures !t.response.Redirect? || !t.response.target.ToView? ==> t.next == st
    ensures (t.response.Redirect? && t.response.target.ToView?) <==>
              && st.session.Some? && verb.Post?
              && Filled(title) && Filled(content) && Filled(password)
              && !UniqueIdTaken(st.db.secrets, Generate(draw))
    ensures t.response.Redirect? && t.response.target.ToView? ==>
              && var id := st.db.nextSecretId;
                 && id in t.next.db.secrets
                 && t.next.db.secrets == st.db.secrets[id := t.next.db.secrets[id]]
                 && (Constrained(st.db) ==> id !in st.db.secrets && Constrained(t.next.db))
                 && var s := t.next.db.secrets[id];
                    && s.owner == st.session.value.userId
                    && Some(s.title) == title && Some(s.content) == content
                    && CheckSecretPassword(s, password.value)
                    && s.viewCount == 0 && s.createdAt == now
                    && s.blurLevel == blurLevel.GetOr(DefaultBlurLevel)
                    && s.expiresAt == ExpiresAt(now, expiration)
                    && IsUniqueId(s.uniqueId) && t.response.target.uniqueId == s.uniqueId
                    && s.qrPath == Some(QrPath(s.uniqueId))
  {
    if st.session.None? then Transition(st, Redirect(ToLogin))
    else if verb.Get? then Transition(st, Form)
    else if !(Filled(title) && Filled(content) && Filled(password)) then
      Transition(st, FormError(MissingFields))
    else
      var uniqueId := Generate(draw);
      var secret := NewSecret(st.session.value.userId, title.value, content.value, password.value,
                              blurLevel.GetOr(DefaultBlurLevel), now, ExpiresAt(now, expiration),
                              uniqueId, Some(QrPath(uniqueId)));
      match InsertSecret(st.db, secret)
      // the identifier is not checked for collisions before the commit
      case None => Transition(st, Fault)
      case Some(db) => Transition(st.(db := db), Redirect(ToView(uniqueId)))
  }

  /** The expiry check of `/view`: strictly past its expiry time. */
  predicate IsExpired(s: Secret, now: int) {
    s.expiresAt.Some? && s.expiresAt.value < now
  }

  /** The view counts are the only thing that `/view` may change. */
  predicate SameButCounts(before: Db, after: Db) {
    && after.users == before.users
    && after.nextUserId == before.nextUserId
    && after.nextSecretId == before.nextSecretId
    && after.secrets.Keys == before.secrets.Keys
  }

  /** `/view/<unique_id>`. */
  function ViewSecret(st: State, now: int, verb: Method, uniqueId: string, password: Option<string>): (t: Transition)
    ensures t.next.session == st.session && SameButCounts(st.db, t.next.db)
    ensures !UniqueIdTaken(st.db.secrets, uniqueId) ==> t == Transition(st, ErrorPage(NotFound))
    ensures UniqueIdTaken(st.db.secrets, uniqueId) ==>
              && t.response != ErrorPage(NotFound)
              && var k := SecretByUniqueId(st.db.secrets, uniqueId).value;
                 var s := st.db.secrets[k];
                 && (t.response == ErrorPage(Expired) <==> IsExpired(s, now))
                 && (verb.Get? && !IsExpired(s, now) ==>
                       t == Transition(st, SecretPage(SecretToDict(k, s), None, false, false)))
                 && (verb.Post? && !IsExpired(s, now) && password.None? ==> t == Transition(st, Fault))
                 && (verb.Post? && !IsExpired(s, now) && password.Some? && !CheckSecretPassword(s, password.value) ==>
                       t == Transition(st, SecretPage(SecretToDict(k, s), None, false, true)))
                 && (verb.Post? && !IsExpired(s, now) && password.Some? && CheckSecretPassword(s, password.value) ==>
                       t.response == SecretPage(SecretToDict(k, s.(viewCount := s.viewCount + 1)), Some(s.content), true, false))
    ensures !(t.response.SecretPage? && t.response.authenticated) ==> t.next == st
    ensures t.response.SecretPage? && !t.response.authenticated ==> t.response.content.None?
    ensures t.response.SecretPage? && t.response.authenticated ==>
              && verb.Post? && password.Some?
              && SecretByUniqueId(st.db.secrets, uniqueId).Some?
              && var k := SecretByUniqueId(st.db.secrets, uniqueId).value;
                 var s := st.db.secrets[k];
                 && !IsExpired(s, now)
                 && CheckSecretPassword(s, password.value)
                 && t.response.content == Some(s.content)
                 && t.next.db.secrets == st.db.secrets[k := s.(viewCount := s.viewCount + 1)]
  {
    match SecretByUniqueId(st.db.secrets, uniqueId)
    case None => Transition(st, ErrorPage(NotFound))
    case Some(k) =>
      var s := st.db.secrets[k];
      if IsExpired(s, now) then Transition(st, ErrorPage(Expired))
      else if verb.Get? then Transition(st, SecretPage(SecretToDict(k, s), None, false, false))
      else if password.None? then
        // check_password_hash cannot hash a missing password and raises
        Transition(st, Fault)
      else if CheckSecretPassword(s, password.value) then
        var seen := s.(viewCount := s.viewCount + 1);
        Transition(st.(db := st.db.(secrets := st.db.secrets[k := seen])),
                   SecretPage(SecretToDict(k, seen), Some(s.content), true, false))
      else
        Transition(st, SecretPage(SecretToDict(k, s), None, false, true))
  }

  /** A secret given `hours` > 0 can still be viewed at exactly its expiry
      time and is refused one second later. */
  lemma ExpiryBoundary(now: int, hours: int, s: Secret)
    requires hours > 0 && s.expiresAt == ExpiresAt(now, Some(hours))
    ensures !IsExpired(s, now + hours * SecondsPerHour)
    ensures IsExpired(s, now + hours * SecondsPerHour + 1)
    ensures forall t :: t <= now ==> !IsExpired(s, t)
  {
  }

  /** A secret given no positive number of hours never expires. */
  lemma NoExpiryNeverExpires(now: int, expiration: Option<int>, s: Secret, later: int)
    requires expiration.None? || expiration.value <= 0
    requires s.expiresAt == ExpiresAt(now, expiration)
    ensures !IsExpired(s, later)
  {
  }

  /** An expired secret is refused whatever the method and password, and
      nothing changes. */
  lemma ViewExpired(st: State, now: int, verb: Method, uniqueId: string, password: Option<string>, k: nat)
    requires UniqueIdsDistinct(st.db.secrets)
    requires k in st.db.secrets && st.db.secrets[k].uniqueId == uniqueId
    requires IsExpired(st.db.secrets[k], now)
    ensures ViewSecret(st, now, verb, uniqueId, password) == Transition(st, ErrorPage(Expired))
  {
  }

  /** On a live secret, a POST is let through exactly when its password checks. */
  lemma ViewPasswordGate(st: State, now: int, uniqueId: string, password: string, k: nat)
    requires UniqueIdsDistinct(st.db.secrets)
    requires k in st.db.secrets && st.db.secrets[k].uniqueId == uniqueId
    requires !IsExpired(st.db.secrets[k], now)
    ensures var t := ViewSecret(st, now, Post, uniqueId, Some(password));
            (t.response.SecretPage? && t.response.authenticated) <==>
            CheckSecretPassword(st.db.secrets[k], password)
  {
  }

  /** `/`. */
  function Index(st: State): (t: Transition)
    ensures t.next == st
    ensures t.response == Redirect(ToDashboard) <==> st.session.Some?
    ensures st.session.None? ==> t.response.Landing?
  {
    Transition(st, if st.session.Some? then Redirect(ToDashboard) else Landing)
  }

  /** `/api/auth/check`: the signed-in user's `to_dict`, when there is one. */
  function CheckAuth(st: State): (t: Transition)
    ensures t.next == st && t.response.AuthStatus?
    ensures t.response.user.Some? <==> st.session.Some? && st.session.value.userId in st.db.users
    ensures t.response.user.Some? ==>
              t.response.user.value == UserToDict(st.session.value.userId, st.db.users[st.session.value.userId])
  {
    match st.session
    case Some(s) =>
      if s.userId in st.db.users then Transition(st, AuthStatus(Some(UserToDict(s.userId, st.db.users[s.userId]))))
      else Transition(st, AuthStatus(None))
    case None => Transition(st, AuthStatus(None))
  }
}

=== FILE: keys.dfy ===
/** Primary keys. A query's `.first()` without an ORDER BY is modelled as the
    row with the least primary key among the rows that match. */
module Keys {

  /** `m` is no greater than any key of `s`. */
  predicate IsLeast(m: nat, s: set<nat>) {
    m in s && forall k :: k in s ==> m <= k
  }

  /** Every finite non-empty set of keys has a least element. */
  lemma {:induction false} HasLeast(s: set<nat>)
    requires s != {}
    ensures exists m :: IsLeast(m, s)
    decreases |s|
  {
    var x :| x in s;
    if s == {x} {
      forall k | k in s
        ensures x <= k
      {
        assert k in {x};
      }
      assert IsLeast(x, s);
    } else {
      var rest := s - {x};
      assert rest != {} by {
        var y :| y in s && y != x;
        assert y in rest;
      }
      HasLeast(rest);
      var m :| IsLeast(m, rest);
      var least := if x < m then x else m;
      forall k | k in s
        ensures least <= k
      {
        if k != x {
          assert k in rest;
        }
      }
      assert IsLeast(least, s);
    }
  }

  /** The least key of a non-empty set. */
  function Least(s: set<nat>): (m: nat)
    requires s != {}
    ensures m in s
    ensures forall k :: k in s ==> m <= k
  {
    HasLeast(s);
    var m :| IsLeast(m, s);
    m
  }
}

=== FILE: passwords.dfy ===
/** Salted password hashing, reduced to the one law the application relies on:
    a password checks against the hash computed from it. Salting and the hash
    function itself are not modelled; the model never uses anything about a
    failed check beyond the check having returned false. */
module Passwords {

  datatype PasswordHash = Digest(of: string)

  /** `generate_password_hash`. */
  function HashPassword(password: string): (h: PasswordHash)
    ensures CheckPassword(h, password)
  {
    Digest(password)
  }

  /** `check_password_hash`. */
  predicate CheckPassword(h: PasswordHash, password: string) {
    h.of == password
  }
}

=== FILE: runs.dfy ===
/** The application as a state machine: one request at a time, each handled
    by its route at the time the caller supplies. This module states what
    every reachable state satisfies and what no sequence of requests can do. */
module Runs {
  import opened Wrappers
  import opened UniqueIds
  import opened Schema
  import opened App

  datatype Request =
    | LoginRequest(loginVerb: Method, loginName: Option<string>, loginPassword: Option<string>)
    | RegisterRequest(registerVerb: Method, registerName: Option<string>, registerEmail: Option<string>,
                      registerPassword: Option<string>)
    | LogoutRequest
    | DashboardRequest
    | CreateRequest(createVerb: Method, title: Option<string>, content: Option<string>,
                    secretPassword: Option<string>, blurLevel: Option<int>, expiration: Option<int>, draw: Draw)
    | ViewRequest(viewVerb: Method, uniqueId: string, viewPassword: Option<string>)
    | IndexRequest
    | AuthCheckRequest

  /** A request and the time it arrives. */
  datatype Event = Event(now: int, request: Request)

  function Step(st: State, now: int, req: Request): Transition {
    match req
    case LoginRequest(verb, name, password) => Login(st, verb, name, password)
    case RegisterRequest(verb, name, email, password) => Register(st, now, verb, name, email, password)
    case LogoutRequest => Logout(st)
    case DashboardRequest => ShowDashboard(st)
    case CreateRequest(verb, title, content, password, blur, expiration, draw) =>
      CreateSecret(st, now, verb, title, content, password, blur, expiration, draw)
    case ViewRequest(verb, uniqueId, password) => ViewSecret(st, now, verb, uniqueId, password)
    case IndexRequest => Index(st)
    case AuthCheckRequest => CheckAuth(st)
  }

  /** The state after handling `events` in order. */
  function Run(st: State, events: seq<Event>): State
    decreases |events|
  {
    if events == [] then st
    else Run(Step(st, events[0].now, events[0].request).next, events[1..])
  }

  /** A stored secret as `create_secret` leaves it. */
  predicate WellFormedSecret(s: Secret) {
    && IsUniqueId(s.uniqueId)
    && s.qrPath == Some(QrPath(s.uniqueId))
    && (s.expiresAt.Some? ==> s.expiresAt.value > s.createdAt)
  }

  /** What every reachable state satisfies. */
  predicate Valid(st: State) {
    && Constrained(st.db)
    && (st.session.Some? ==>
          && st.session.value.userId in st.db.users
          && st.db.users[st.session.value.userId].username == st.session.value.username)
    && forall k :: k in st.db.secrets ==>
         st.db.secrets[k].owner in st.db.users && WellFormedSecret(st.db.secrets[k])
  }

  /** `after` keeps every row of `before`: users unchanged, secrets unchanged
      except for a view count that has not gone down. */
  predicate Evolves(before: Db, after: Db) {
    && (forall k :: k in before.users ==> k in after.users && after.users[k] == before.users[k])
    && (forall k :: k in before.secrets ==>
          && k in after.secrets
          && after.secrets[k] == before.secrets[k].(viewCount := after.secrets[k].viewCount)
          && after.secrets[k].viewCount >= before.secrets[k].viewCount)
  }

  lemma EvolvesTransitive(a: Db, b: Db, c: Db)
    requires Evolves(a, b) && Evolves(b, c)
    ensures Evolves(a, c)
  {
  }

  /** The admin account `init_db` seeds. */
  predicate AdminSeeded(db: Db) {
    exists k :: k in db.users && db.users[k].username == AdminUsername && db.users[k].isAdmin
  }

  /** The state when the application starts: a fresh store seeded by
      `init_db`, and no session. */
  function Boot(now: int): (st: State)
    ensures Valid(st) && AdminSeeded(st.db) && st.session.None?
  {
    var db := InitDb(EmptyDb, now).value;
    assert db.users[EmptyDb.nextUserId].username == AdminUsername;
    State(db, None)
  }

  lemma LoginKeepsValid(st: State, verb: Method, name: Option<string>, password: Option<string>)
    requires Valid(st)
    ensures Valid(Login(st, verb, name, password).next)
  {
  }

  lemma RegisterKeepsValid(st: State, now: int, verb: Method, name: Option<string>, email: Option<string>,
                           password: Option<string>)
    requires Valid(st)
    ensures Valid(Register(st, now, verb, name, email, password).next)
  {
    var t := Register(st, now, verb, name, email, password);
    if t.response == Redirect(ToDashboard) {
      forall k | k in t.next.db.secrets
        ensures t.next.db.secrets[k].owner in t.next.db.users
      {
        assert k in st.db.secrets;
      }
    }
  }

  lemma CreateKeepsValid(st: State, now: int, verb: Method, title: Option<string>, content: Option<string>,
                         password: Option<string>, blur: Option<int>, expiration: Option<int>, draw: Draw)
    requires Valid(st)
    ensures Valid(CreateSecret(st, now, verb, title, content, password, blur, expiration, draw).next)
  {
  }

  lemma ViewKeepsValid(st: State, now: int, verb: Method, uniqueId: string, password: Option<string>)
    requires Valid(st)
    ensures Valid(ViewSecret(st, now, verb, uniqueId, password).next)
  {
    var t := ViewSecret(st, now, verb, uniqueId, password);
    if t.next != st {
      var k := SecretByUniqueId(st.db.secrets, uniqueId).value;
      assert UniqueIdsDistinct(t.next.db.secrets) by {
        forall a, b | a in t.next.db.secrets && b in t.next.db.secrets &&
                      t.next.db.secrets[a].uniqueId == t.next.db.secrets[b].uniqueId
          ensures a == b
        {
          assert st.db.secrets[a].uniqueId == st.db.secrets[b].uniqueId;
        }
      }
    }
  }

  /** Every request keeps the state valid: in particular usernames, emails and
      unique identifiers stay pairwise distinct. */
  lemma StepKeepsValid(st: State, now: int, req: Request)
    requires Valid(st)
    ensures Valid(Step(st, now, req).next)
  {
    match req
    case LoginRequest(verb, name, password) => LoginKeepsValid(st, verb, name, password);
    case RegisterRequest(verb, name, email, password) => RegisterKeepsValid(st, now, verb, name, email, password);
    case LogoutRequest =>
    case DashboardRequest =>
    case CreateRequest(verb, title, content, password, blur, expiration, draw) =>
      CreateKeepsValid(st, now, verb, title, content, password, blur, expiration, draw);
    case ViewRequest(verb, uniqueId, password) => ViewKeepsValid(st, now, verb, uniqueId, password);
    case IndexRequest =>
    case AuthCheckRequest =>
  }

  lemma RegisterEvolves(st: State, now: int, verb: Method, name: Option<string>, email: Option<string>,
                         password: Option<string>)
    requires Valid(st)
    ensures Evolves(st.db, Register(st, now, verb, name, email, password).next.db)
  {
  }

  lemma CreateKeepsSecrets(st: State, now: int, verb: Method, title: Option<string>, content: Option<string>,
                           password: Option<string>, blur: Option<int>, expiration: Option<int>, draw: Draw)
    requires Valid(st)
    ensures var after := CreateSecret(st, now, verb, title, content, password, blur, expiration, draw).next.db;
            forall k :: k in st.db.secrets ==> k in after.secrets && after.secrets[k] == st.db.secrets[k]
  {
  }

  lemma ViewEvolves(st: State, now: int, verb: Method, uniqueId: string, password: Option<string>)
    ensures Evolves(st.db, ViewSecret(st, now, verb, uniqueId, password).next.db)
  {
    var t := ViewSecret(st, now, verb, uniqueId, password);
    if t.next != st {
      var k := SecretByUniqueId(st.db.secrets, uniqueId).value;
      var s := st.db.secrets[k];
      assert t.next.db.secrets == st.db.secrets[k := s.(viewCount := s.viewCount + 1)];
      forall j | j in st.db.secrets
        ensures j in t.next.db.secrets
        ensures t.next.db.secrets[j] == st.db.secrets[j].(viewCount := t.next.db.secrets[j].viewCount)
        ensures t.next.db.secrets[j].viewCount >= st.db.secrets[j].viewCount
      {
      }
    }
  }

  /** Every request other than a view leaves each stored secret as it was. */
  lemma OthersKeepSecrets(st: State, now: int, req: Request)
    requires Valid(st) && !req.ViewRequest?
    ensures var after := Step(st, now, req).next.db;
            forall k :: k in st.db.secrets ==> k in after.secrets && after.secrets[k] == st.db.secrets[k]
  {
    match req
    case CreateRequest(verb, title, content, password, blur, expiration, draw) =>
      CreateKeepsSecrets(st, now, verb, title, content, password, blur, expiration, draw);
    case _ =>
  }

  /** No request deletes or edits a row, other than raising a view count. */
  lemma StepEvolves(st: State, now: int, req: Request)
    requires Valid(st)
    ensures Evolves(st.db, Step(st, now, req).next.db)
  {
    match req
    case RegisterRequest(verb, name, email, password) => RegisterEvolves(st, now, verb, name, email, password);
    case CreateRequest(verb, title, content, password, blur, expiration, draw) =>
      CreateKeepsSecrets(st, now, verb, title, content, password, blur, expiration, draw);
    case ViewRequest(verb, uniqueId, password) => ViewEvolves(st, now, verb, uniqueId, password);
    case _ =>
  }

  /** A view count changes only when a POST to `/view` carried the secret's
      password; it then goes up by exactly one and no other row changes. */
  lemma CountChangesOnlyOnCorrectPassword(st: State, now: int, req: Request, k: nat)
    requires Valid(st)
    requires k in st.db.secrets
    ensures var after := Step(st, now, req).next.db;
            (k !in after.secrets || after.secrets[k].viewCount != st.db.secrets[k].viewCount) ==>
              && req.ViewRequest? && req.viewVerb.Post? && req.viewPassword.Some?
              && var s := st.db.secrets[k];
                 && s.uniqueId == req.uniqueId
                 && !IsExpired(s, now)
                 && CheckSecretPassword(s, req.viewPassword.value)
                 && after.secrets == st.db.secrets[k := s.(viewCount := s.viewCount + 1)]
  {
    if !req.ViewRequest? {
      OthersKeepSecrets(st, now, req);
    } else {
      ViewCountChange(st, now, req.viewVerb, req.uniqueId, req.viewPassword, k);
    }
  }

  lemma ViewCountChange(st: State, now: int, verb: Method, uniqueId: string, password: Option<string>, k: nat)
    requires Valid(st)
    requires k in st.db.secrets
    ensures var after := ViewSecret(st, now, verb, uniqueId, password).next.db;
            (k !in after.secrets || after.secrets[k].viewCount != st.db.secrets[k].viewCount) ==>
              && verb.Post? && password.Some?
              && var s := st.db.secrets[k];
                 && s.uniqueId == uniqueId
                 && !IsExpired(s, now)
                 && CheckSecretPassword(s, password.value)
                 && after.secrets == st.db.secrets[k := s.(viewCount := s.viewCount + 1)]
  {
    var t := ViewSecret(st, now, verb, uniqueId, password);
    if t.next != st {
      var j := SecretByUniqueId(st.db.secrets, uniqueId).value;
      if j != k {
        assert t.next.db.secrets[k] == st.db.secrets[k];
      }
    }
  }

  /** Only a POST carrying the right password to a live secret ever shows its
      content; an expired or unknown secret never does. */
  lemma OnlyAuthenticatedViewsReveal(st: State, now: int, req: Request)
    requires Valid(st)
    ensures var r := Step(st, now, req).response;
            r.SecretPage? && r.content.Some? ==>
              && req.ViewRequest? && req.viewVerb.Post? && req.viewPassword.Some?
              && SecretByUniqueId(st.db.secrets, req.uniqueId).Some?
              && var k := SecretByUniqueId(st.db.secrets, req.uniqueId).value;
                 && k in st.db.secrets
                 && st.db.secrets[k].uniqueId == req.uniqueId
                 && !IsExpired(st.db.secrets[k], now)
                 && CheckSecretPassword(st.db.secrets[k], req.viewPassword.value)
                 && r.content == Some(st.db.secrets[k].content)
  {
  }

  /** Every sequence of requests keeps the state valid. */
  lemma {:induction false} RunKeepsValid(st: State, events: seq<Event>)
    requires Valid(st)
    ensures Valid(Run(st, events))
    decreases |events|
  {
    if events != [] {
      StepKeepsValid(st, events[0].now, events[0].request);
      RunKeepsValid(Step(st, events[0].now, events[0].request).next, events[1..]);
    }
  }

  /** Over any sequence of requests, no row disappears, no user or secret is
      edited, and no view count goes down. */
  lemma {:induction false} RunEvolves(st: State, events: seq<Event>)
    requires Valid(st)
    ensures Evolves(st.db, Run(st, events).db)
    decreases |events|
  {
    if events != [] {
      var next := Step(st, events[0].now, events[0].request).next;
      StepEvolves(st, events[0].now, events[0].request);
      StepKeepsValid(st, events[0].now, events[0].request);
      RunEvolves(next, events[1..]);
      EvolvesTransitive(st.db, next.db, Run(next, events[1..]).db);
    }
  }

  /** Once seeded, the admin account stays, whatever is requested afterwards. */
  lemma AdminPersists(boot: int, events: seq<Event>)
    ensures var st := Run(Boot(boot), events);
            Valid(st) && AdminSeeded(st.db)
  {
    var start := Boot(boot);
    RunKeepsValid(start, events);
    RunEvolves(start, events);
    var k :| k in start.db.users && start.db.users[k].username == AdminUsername && start.db.users[k].isAdmin;
    assert k in Run(start, events).db.users;
  }
}

=== FILE: schema.dfy ===
/** The two tables, `users` and `secrets`, as maps from primary key to row,
    with the column defaults, the UNIQUE constraints the store enforces at
    commit, the `to_dict` projections, and the admin seeding of `init_db`. */
module Schema {
  import opened Wrappers
  import opened Passwords
  import opened UniqueIds
  import Keys

  /** Default of `Secret.blur_level`, and of the `blur_level` form field. */
  const DefaultBlurLevel: int := 10

  const AdminUsername: string := "admin"
  const AdminEmail: string := "admin@sharesecret.com"
  const AdminPassword: string := "1234567"

  /** A row of `users`; the primary key is the map key. */
  datatype User = User(
    username: string,
    email: string,
    passwordHash: PasswordHash,
    createdAt: int,
    isAdmin: bool)

  /** A row of `secrets`; the primary key is the map key. */
  datatype Secret = Secret(
    owner: nat,
    title: string,
    content: string,
    passwordHash: PasswordHash,
    blurLevel: int,
    createdAt: int,
    expiresAt: Option<int>,
    viewCount: nat,
    uniqueId: string,
    qrPath: Option<string>)

  /** `User.set_password`: replaces the hash and nothing else. */
  function SetUserPassword(u: User, password: string): (u': User)
    ensures CheckUserPassword(u', password)
    ensures u' == u.(passwordHash := u'.passwordHash)
  {
    u.(passwordHash := HashPassword(password))
  }

  /** `User.check_password`. */
  predicate CheckUserPassword(u: User, password: string) {
    CheckPassword(u.passwordHash, password)
  }

  /** `Secret.set_password`: replaces the hash and nothing else. */
  function SetSecretPassword(s: Secret, password: string): (s': Secret)
    ensures CheckSecretPassword(s', password)
    ensures s' == s.(passwordHash := s'.passwordHash)
  {
    s.(passwordHash := HashPassword(password))
  }

  /** `Secret.check_password`. */
  predicate CheckSecretPassword(s: Secret, password: string) {
    CheckPassword(s.passwordHash, password)
  }

  /** A user as constructed by the application and inserted at time `now`:
      `created_at` and `is_admin` take their column defaults. */
  function NewUser(username: string, email: string, password: string, now: int): (u: User)
    ensures u.username == username && u.email == email
    ensures CheckUserPassword(u, password)
    ensures u.createdAt == now && !u.isAdmin
  {
    SetUserPassword(User(username, email, Digest(""), now, false), password)
  }

  /** A secret as constructed by the application and inserted at time `now`:
      `created_at` and `view_count` take their column defaults. */
  function NewSecret(owner: nat, title: string, content: string, password: string, blurLevel: int,
                     now: int, expiresAt: Option<int>, uniqueId: string, qrPath: Option<string>): (s: Secret)
    ensures s.owner == owner && s.title == title && s.content == content
    ensures s.blurLevel == blurLevel && s.expiresAt == expiresAt
    ensures s.uniqueId == uniqueId && s.qrPath == qrPath
    ensures CheckSecretPassword(s, password)
    ensures s.createdAt == now && s.viewCount == 0
  {
    SetSecretPassword(Secret(owner, title, content, Digest(""), blurLevel, now, expiresAt, 0, uniqueId, qrPath), password)
  }

  /** The persisted store. Keys are issued in increasing order, from 1. */
  datatype Db = Db(users: map<nat, User>, secrets: map<nat, Secret>, nextUserId: nat, nextSecretId: nat)

  /** The store right after `db.create_all()`. */
  const EmptyDb: Db := Db(map[], map[], 1, 1)

  predicate UsernameTaken(users: map<nat, User>, name: string) {
    exists k :: k in users && users[k].username == name
  }

  predicate EmailTaken(users: map<nat, User>, email: string) {
    exists k :: k in users && users[k].email == email
  }

  predicate UniqueIdTaken(secrets: map<nat, Secret>, uniqueId: string) {
    exists k :: k in secrets && secrets[k].uniqueId == uniqueId
  }

  /** `users.username` is UNIQUE. */
  predicate UsernamesDistinct(users: map<nat, User>) {
    forall a, b :: a in users && b in users && users[a].username == users[b].username ==> a == b
  }

  /** `users.email` is UNIQUE. */
  predicate EmailsDistinct(users: map<nat, User>) {
    forall a, b :: a in users && b in users && users[a].email == users[b].email ==> a == b
  }

  /** `secrets.unique_id` is UNIQUE. */
  predicate UniqueIdsDistinct(secrets: map<nat, Secret>) {
    forall a, b :: a in secrets && b in secrets && secrets[a].uniqueId == secrets[b].uniqueId ==> a == b
  }

  /** Every key in use was issued before `next`. */
  predicate KeysIssued<V>(m: map<nat, V>, next: nat) {
    forall k :: k in m ==> 0 < k < next
  }

  /** The constraints the store keeps. */
  predicate Constrained(db: Db) {
    && 0 < db.nextUserId && 0 < db.nextSecretId
    && UsernamesDistinct(db.users)
    && EmailsDistinct(db.users)
    && UniqueIdsDistinct(db.secrets)
    && KeysIssued(db.users, db.nextUserId)
    && KeysIssued(db.secrets, db.nextSecretId)
  }

  /** Adding a user row and committing: the commit fails with an integrity
      error when the username or the email is already taken. */
  function InsertUser(db: Db, u: User): (r: Option<Db>)
    ensures r.None? <==> UsernameTaken(db.users, u.username) || EmailTaken(db.users, u.email)
    ensures r.Some? ==> r.value.secrets == db.secrets && r.value.nextSecretId == db.nextSecretId
    ensures r.Some? ==> r.value.users == db.users[db.nextUserId := u]
    ensures r.Some? && Constrained(db) ==> db.nextUserId !in db.users && Constrained(r.value)
  {
    if UsernameTaken(db.users, u.username) || EmailTaken(db.users, u.email) then None
    else Some(db.(users := db.users[db.nextUserId := u], nextUserId := db.nextUserId + 1))
  }

  /** Adding a secret row and committing: the commit fails with an integrity
      error when the unique identifier is already taken. */
  function InsertSecret(db: Db, s: Secret): (r: Option<Db>)
    ensures r.None? <==> UniqueIdTaken(db.secrets, s.uniqueId)
    ensures r.Some? ==> r.value.users == db.users && r.value.nextUserId == db.nextUserId
    ensures r.Some? ==> r.value.secrets == db.secrets[db.nextSecretId := s]
    ensures r.Some? && Constrained(db) ==> db.nextSecretId !in db.secrets && Constrained(r.value)
  {
    if UniqueIdTaken(db.secrets, s.uniqueId) then None
    else Some(db.(secrets := db.secrets[db.nextSecretId := s], nextSecretId := db.nextSecretId + 1))
  }

  /** `User.query.filter_by(username=name).first()`. A missing name compares
      as NULL and matches no row. */
  function UserByName(users: map<nat, User>, name: Option<string>): (r: Option<nat>)
    ensures r.Some? ==> r.value in users && name == Some(users[r.value].username)
    ensures r.None? <==> name.None? || !UsernameTaken(users, name.value)
    ensures UsernamesDistinct(users) ==>
              forall k :: k in users && name == Some(users[k].username) ==> r == Some(k)
  {
    if name.None? || !UsernameTaken(users, name.value) then None
    else
      var matches := set k | k in users && name == Some(users[k].username);
      var w :| w in users && users[w].username == name.value;
      assert w in matches;
      Some(Keys.Least(matches))
  }

  /** `Secret.query.filter_by(unique_id=uniqueId).first()`. */
  function SecretByUniqueId(secrets: map<nat, Secret>, uniqueId: string): (r: Option<nat>)
    ensures r.Some? ==> r.value in secrets && secrets[r.value].uniqueId == uniqueId
    ensures r.None? <==> !UniqueIdTaken(secrets, uniqueId)
    ensures UniqueIdsDistinct(secrets) ==>
              forall k :: k in secrets && secrets[k].uniqueId == uniqueId ==> r == Some(k)
  {
    if !UniqueIdTaken(secrets, uniqueId) then None
    else
      var matches := set k | k in secrets && secrets[k].uniqueId == uniqueId;
      var w :| w in secrets && secrets[w].uniqueId == uniqueId;
      assert w in matches;
      Some(Keys.Least(matches))
  }

  /** What `User.to_dict` exposes. */
  datatype UserInfo = UserInfo(id: nat, username: string, email: string, createdAt: int, isAdmin: bool)

  /** What `Secret.to_dict` exposes. */
  datatype SecretInfo = SecretInfo(
    id: nat,
    title: string,
    blurLevel: int,
    createdAt: int,
    expiresAt: Option<int>,
    viewCount: nat,
    uniqueId: string)

  function UserToDict(id: nat, u: User): UserInfo {
    UserInfo(id, u.username, u.email, u.createdAt, u.isAdmin)
  }

  function SecretToDict(id: nat, s: Secret): SecretInfo {
    SecretInfo(id, s.title, s.blurLevel, s.createdAt, s.expiresAt, s.viewCount, s.uniqueId)
  }

  /** Two users look alike through `to_dict` exactly when they agree on every
      field but the password hash: the hash never shows. */
  lemma UserToDictExposes(id: nat, u: User, id': nat, u': User)
    ensures UserToDict(id, u) == UserToDict(id', u') <==>
              id == id' && u == u'.(passwordHash := u.passwordHash)
  {
  }

  /** Two secrets look alike through `to_dict` exactly when they agree on the
      id, title, blur level, timestamps, view count and unique identifier: the
      content, the password hash, the owner and the QR path never show. */
  lemma SecretToDictExposes(id: nat, s: Secret, id': nat, s': Secret)
    ensures SecretToDict(id, s) == SecretToDict(id', s') <==>
              id == id' &&
              s == s'.(content := s.content, passwordHash := s.passwordHash, owner := s.owner, qrPath := s.qrPath)
  {
  }

  /** The admin seeding of `init_db`, run at start-up at time `now`. `None`
      when the insert's commit fails. */
  function InitDb(db: Db, now: int): (r: Option<Db>)
    ensures UsernameTaken(db.users, AdminUsername) ==> r == Some(db)
    ensures !UsernameTaken(db.users, AdminUsername) ==>
              (r.None? <==> EmailTaken(db.users, AdminEmail))
    ensures r.Some? ==> UsernameTaken(r.value.users, AdminUsername)
    ensures r.Some? && !UsernameTaken(db.users, AdminUsername) ==>
              && db.nextUserId in r.value.users
              && r.value.users == db.users[db.nextUserId := r.value.users[db.nextUserId]]
              && r.value.secrets == db.secrets
              && var admin := r.value.users[db.nextUserId];
                 admin.username == AdminUsername && admin.email == AdminEmail &&
                 admin.isAdmin && CheckUserPassword(admin, AdminPassword)
    ensures r.Some? && Constrained(db) ==> Constrained(r.value)
  {
    if UsernameTaken(db.users, AdminUsername) then Some(db)
    else
      var admin := NewUser(AdminUsername, AdminEmail, AdminPassword, now).(isAdmin := true);
      var r := InsertUser(db, admin);
      assert r.Some? ==> r.value.users[db.nextUserId] == admin;
      r
  }

  /** Seeding twice adds nothing the first run did not. */
  lemma InitDbIdempotent(db: Db, now: int, later: int)
    requires InitDb(db, now).Some?
    ensures InitDb(InitDb(db, now).value, later) == InitDb(db, now)
  {
  }
}

=== FILE: unique_ids.dfy ===
/** The public identifier of a secret: "sec_" followed by ten characters drawn
    from the ASCII letters and digits. The random source is modelled by a
    `Draw`, the ten alphabet positions a run of `secrets.choice` picked. */
module UniqueIds {

  const Prefix: string := "sec_"
  const RandomLength: nat := 10
  const AlphabetSize: nat := 62
  /** Width of the `unique_id` column. */
  const ColumnWidth: nat := 50

  const AsciiLowercase: string := "abcdefghijklmnopqrstuvwxyz"
  const AsciiUppercase: string := "ABCDEFGHIJKLMNOPQRSTUVWXYZ"
  /** `string.ascii_letters`. */
  const AsciiLetters: string := AsciiLowercase + AsciiUppercase
  /** `string.digits`. */
  const Digits: string := "0123456789"
  /** The alphabet `secrets.choice` draws from. */
  const Alphabet: string := AsciiLetters + Digits

  predicate IsAlnum(c: char) {
    ('a' <= c <= 'z') || ('A' <= c <= 'Z') || ('0' <= c <= '9')
  }

  /** The format of every identifier the application issues. */
  predicate IsUniqueId(s: string) {
    && |s| == |Prefix| + RandomLength
    && s[..|Prefix|] == Prefix
    && forall i :: |Prefix| <= i < |s| ==> IsAlnum(s[i])
  }

  /** Ten positions in the alphabet, as picked by `secrets.choice`. */
  type Draw = d: seq<nat> | |d| == RandomLength && forall i :: 0 <= i < |d| ==> d[i] < AlphabetSize
    witness [0, 0, 0, 0, 0, 0, 0, 0, 0, 0]

  lemma LowercaseAt(i: nat)
    requires i < 26
    ensures AsciiLowercase[i] as int == 'a' as int + i
  {
  }

  lemma UppercaseAt(i: nat)
    requires i < 26
    ensures AsciiUppercase[i] as int == 'A' as int + i
  {
  }

  lemma DigitAt(i: nat)
    requires i < 10
    ensures Digits[i] as int == '0' as int + i
  {
  }

  /** Position `k` of the alphabet, as a character code. */
  lemma AlphabetAt(k: nat)
    requires k < AlphabetSize
    ensures |Alphabet| == AlphabetSize
    ensures k < 26 ==> Alphabet[k] as int == 'a' as int + k
    ensures 26 <= k < 52 ==> Alphabet[k] as int == 'A' as int + (k - 26)
    ensures 52 <= k ==> Alphabet[k] as int == '0' as int + (k - 52)
  {
    assert |AsciiLowercase| == 26 && |AsciiUppercase| == 26 && |Digits| == 10;
    if k < 52 {
      assert Alphabet[k] == AsciiLetters[k];
      if k < 26 {
        assert AsciiLetters[k] == AsciiLowercase[k];
        LowercaseAt(k);
      } else {
        assert AsciiLetters[k] == AsciiUppercase[k - 26];
        UppercaseAt(k - 26);
      }
    } else {
      assert Alphabet[k] == Digits[k - 52];
      DigitAt(k - 52);
    }
  }

  /** The alphabet position of an ASCII letter or digit. */
  function IndexOf(c: char): (k: nat)
    requires IsAlnum(c)
    ensures k < AlphabetSize && |Alphabet| == AlphabetSize
    ensures Alphabet[k] == c
  {
    var k := if 'a' <= c <= 'z' then c as int - 'a' as int
             else if 'A' <= c <= 'Z' then 26 + (c as int - 'A' as int)
             else 52 + (c as int - '0' as int);
    AlphabetAt(k);
    k
  }

  /** The alphabet holds exactly the ASCII letters and digits, each once. */
  lemma AlphabetIsAlnum(k: nat)
    requires k < AlphabetSize
    ensures k < |Alphabet| && IsAlnum(Alphabet[k])
    ensures IndexOf(Alphabet[k]) == k
  {
    AlphabetAt(k);
  }

  lemma AlphabetMembership(c: char)
    ensures c in Alphabet <==> IsAlnum(c)
  {
    if c in Alphabet {
      var k :| 0 <= k < |Alphabet| && Alphabet[k] == c;
      AlphabetAt(k);
      AlphabetIsAlnum(k);
    }
    if IsAlnum(c) {
      var k := IndexOf(c);
      assert Alphabet[k] == c;
    }
  }

  /** The ten random characters a draw selects. */
  function Picks(d: Draw): (tail: string)
    ensures |tail| == RandomLength
    ensures forall i :: 0 <= i < RandomLength ==> IsAlnum(tail[i])
  {
    AlphabetAt(0);
    var tail := seq(RandomLength, i requires 0 <= i < RandomLength => Alphabet[d[i]]);
    PicksAreAlnum(d, tail);
    tail
  }

  lemma PicksAreAlnum(d: Draw, tail: string)
    requires |tail| == RandomLength && |Alphabet| == AlphabetSize
    requires forall i :: 0 <= i < RandomLength ==> tail[i] == Alphabet[d[i]]
    ensures forall i :: 0 <= i < RandomLength ==> IsAlnum(tail[i])
  {
    forall i | 0 <= i < RandomLength
      ensures IsAlnum(tail[i])
    {
      AlphabetIsAlnum(d[i]);
    }
  }

  /** `generate_unique_id`, and the same expression inlined in `create_secret`. */
  function Generate(d: Draw): (id: string)
    ensures IsUniqueId(id)
    ensures |id| <= ColumnWidth
  {
    var id := Prefix + Picks(d);
    assert id[..|Prefix|] == Prefix;
    id
  }

  /** The draw that produces a well-formed identifier. */
  function DrawOf(id: string): (d: Draw)
    requires IsUniqueId(id)
    ensures Generate(d) == id
  {
    var raw := seq<nat>(RandomLength, i requires 0 <= i < RandomLength => IndexOf(id[|Prefix| + i]));
    assert forall i :: 0 <= i < RandomLength ==> raw[i] == IndexOf(id[|Prefix| + i]);
    IndicesInAlphabet(id, raw);
    DrawOfGenerates(id, raw);
    raw
  }

  lemma IndicesInAlphabet(id: string, raw: seq<nat>)
    requires IsUniqueId(id) && |raw| == RandomLength
    requires forall i :: 0 <= i < RandomLength ==> raw[i] == IndexOf(id[|Prefix| + i])
    ensures |Alphabet| == AlphabetSize
    ensures forall i :: 0 <= i < RandomLength ==> raw[i] < AlphabetSize && Alphabet[raw[i]] == id[|Prefix| + i]
  {
    AlphabetAt(0);
  }

  lemma DrawOfGenerates(id: string, d: Draw)
    requires IsUniqueId(id) && |Alphabet| == AlphabetSize
    requires forall i :: 0 <= i < RandomLength ==> Alphabet[d[i]] == id[|Prefix| + i]
    ensures Generate(d) == id
  {
    var g := Generate(d);
    assert g[..|Prefix|] == Prefix == id[..|Prefix|];
    forall i | 0 <= i < |id|
      ensures g[i] == id[i]
    {
      if i < |Prefix| {
        assert g[i] == g[..|Prefix|][i];
        assert id[i] == id[..|Prefix|][i];
      }
    }
  }

  /** Distinct draws give distinct identifiers: the draw is recovered from the identifier. */
  lemma DrawRoundTrip(d: Draw)
    ensures DrawOf(Generate(d)) == d
  {
    var d' := DrawOf(Generate(d));
    forall i | 0 <= i < RandomLength
      ensures d'[i] == d[i]
    {
      AlphabetIsAlnum(d[i]);
    }
  }

  /** Exactly the well-formed identifiers are the ones some draw produces. */
  lemma GeneratedIff(id: string)
    ensures IsUniqueId(id) <==> exists d: Draw :: Generate(d) == id
  {
    if IsUniqueId(id) {
      var d := DrawOf(id);
      assert Generate(d) == id;
    }
  }
}

=== FILE: wrappers.dfy ===
/** Optional values: a form field that may be absent, a nullable column,
    a query that may find no row. */
module Wrappers {

  datatype Option<+T> = None | Some(value: T) {

    /** Returns the value held in Some, or `default` when None. */
    function GetOr(default: T): T {
      match this
      case Some(v) => v
      case None => default
    }
  }
}
